=== FILE: README.md ===
# FlexCFL actor bookkeeping, modelled in Dafny

FlexCFL simulates clustered federated learning. A server, groups and clients
form a topology of *actors*. Every actor holds a Keras model, local training
and test data, the parameters and update of the latest round, and its
`uplink`/`downlink` edges. This project models the part of the actor and
client classes that depends neither on TensorFlow nor on the configuration:

- the topology edits, which use list-with-set semantics;
- the parameter bookkeeping: `preprocess`, `get_params`/`set_params`,
  `solve_inner` with its rollback, `apply_update` and `test_locally`;
- the client's derived state: `check_trainable`, `check_testable`,
  construction, `train`, `test` and `has_downlink`.

Modules, one per concern:

| file | module | models |
|---|---|---|
| `tensors.dfy` | `Tensors` | parameter lists, `zeros_like`, the zipped `+`/`-` of the actor code |
| `links.dfy` | `Links` | `list(set(a + b))` and the filter comprehension on id lists |
| `pystr.dfy` | `PyStr` | `str(int)`, used to build the actor's name |
| `actor.dfy` | `Actors` | `flearn/actor.py` |
| `client.dfy` | `Clients` | `flearn/client.py` |

Modelling choices:

- A tensor is flattened to `seq<real>`, so a tensor's shape is its length.
  Model parameters are `seq<seq<real>>`. Arithmetic is exact.
- The Keras model is represented by its current weights, the `weights` field.
  `model.fit` and `model.evaluate` are function-valued parameters:
  - `FitFn` maps the starting weights, the data, the batch size and the
    epoch count to the trained weights plus the accuracy and loss histories;
  - `EvalFn` returns `(loss, accuracy)`, in Keras's order.
- Actors refer to each other by integer id (`Links.NodeId`).
- Python exceptions become `Result` values: `TypeError` from `delete_uplink`,
  `ValueError` from `set_weights` on a mis-shaped list, and `KeyError` from
  reading the history of a `fit` that ran no epoch. A Keras history key exists
  exactly when at least one epoch ran, so the model writes an absent key as an
  empty list.

## Model

| member | source | states |
|---|---|---|
| Tensors.ZerosLike | flearn/actor.py:29 | the zero update has exactly the shape of the parameters it is built from and every entry is zero |
| Tensors.ZipAdd | flearn/actor.py:102 | applying an update adds it entry by entry; `zip` stops at the shorter list; each tensor keeps its shape |
| Tensors.ZipSub | flearn/actor.py:82 | the update is the entrywise difference between the trained and the starting weights, truncated by `zip` |
| Tensors.DeltaRoundTrip | flearn/actor.py:82-106 | adding the delta `t1 - t0` back onto `t0` gives exactly `t1`, so an update computed by training and later applied reproduces the trained weights |
| Tensors.DeltaOfSelfIsZero | flearn/actor.py:82 | if training leaves the weights unchanged, the update is the all-zero update |
| Tensors.AddZeroIsIdentity | flearn/actor.py:102 | applying an all-zero update of matching shape leaves the weights unchanged |
| Tensors.AddComposes | flearn/actor.py:101-106 | two updates applied in turn give `t0 + d1 + d2` entrywise, the same as applying `d1 + d2` once |
| Links.Dedup | flearn/actor.py:142 | rebuilding through a set removes duplicates and keeps exactly the same elements |
| Links.Union | flearn/actor.py:142 | an add yields a duplicate-free list whose elements are the old elements together with the added nodes |
| Links.Remove | flearn/actor.py:150 | a delete keeps exactly the old elements that are not among the deleted nodes, and a duplicate-free list stays duplicate-free |
| Links.DedupOfNoDups | flearn/actor.py:142 | in the model's first-occurrence order, a duplicate-free list passes through the set rebuild unchanged |
| Links.DedupAbsorbs | flearn/actor.py:142 | in the model's first-occurrence order, appending elements that are already present to a duplicate-free list and rebuilding changes nothing |
| Links.UnionIdempotent | flearn/actor.py:140-147 | in the model's first-occurrence order, repeating an add with the same nodes changes nothing |
| Links.UnionOne | flearn/actor.py:140-147 | adding one node grows a duplicate-free list by exactly one when the node is new and keeps its length otherwise; in the model's first-occurrence order the list is unchanged, or gains the node at its end |
| Links.RemoveAbsent | flearn/actor.py:149-151 | deleting nodes that are not in the list leaves it unchanged |
| Links.RemoveCovered | flearn/actor.py:150 | deleting nodes that include every element of the list leaves it empty |
| Links.RemoveConcat | flearn/actor.py:150 | the delete filter works piece by piece, so survivors keep their relative order |
| Links.RemoveIsSubsequence | flearn/actor.py:150 | the list after a delete is a subsequence of the list before it |
| Links.RemoveIdempotent | flearn/actor.py:149-151 | deleting the same nodes twice is deleting them once |
| PyStr.DigitChar | flearn/actor.py:27 | digit `d` prints as the decimal digit character whose value is `d` |
| PyStr.NatToString | flearn/actor.py:27 | the printed form of a non-negative integer is a non-empty string of decimal digits with no leading zero: it starts with `0` only for `0` itself |
| PyStr.IntToString | flearn/actor.py:27 | the printed form starts with a minus sign exactly for negative integers, otherwise with a digit, and every later character is a digit; as `str` does, no leading zero is printed, so only `0` itself starts with `0` and `-` is never followed by `0` |
| PyStr.NatRoundTrip | flearn/actor.py:27 | reading back the digits printed for a non-negative integer gives that integer |
| PyStr.IntRoundTrip | flearn/actor.py:27 | the printed form of any integer is a well-formed decimal numeral, and reading it back gives that integer |
| PyStr.IntToStringInjective | flearn/actor.py:27 | two different integers never print the same |
| Actors.Name | flearn/actor.py:27 | the name is the actor type followed by the printed id |
| Actors.NameIdentifies | flearn/actor.py:27 | two actors of the same type with the same name have the same id |
| Actors.Preprocess | flearn/actor.py:26-29 | the name is the actor type followed by the id; `latest_params` is the current weights; `latest_updates` is all zeros of the same shape; nothing else changes |
| Actors.NewActor | flearn/actor.py:9-24 | a new actor has no links, zero sizes and cleared flags; its bookkeeping matches its model and its update is zero |
| Actors.GetParams | flearn/actor.py:31-33 | `get_params` returns the live model's weights; for a synchronised actor these are `latest_params` |
| Actors.SetParams | flearn/actor.py:35-39 | installing weights succeeds exactly when they have the model's shape, as Keras's `set_weights` demands, and otherwise raises `ValueError`; on success they become what `get_params` returns and `latest_params`/`latest_updates` are untouched |
| Actors.SolveInner | flearn/actor.py:62-93 | the actor, weights included, is left exactly as before, also when it raises. With training labels: it raises `KeyError` exactly when `fit` ran no epoch (an empty history); otherwise the sample count is the label count, the histories are `fit`'s, and the update is trained minus starting weights. Without labels: the sentinels `0`, `[0]`, `[0]` and an all-zero update shaped like `latest_params` |
| Actors.ApplyUpdate | flearn/actor.py:95-107 | it succeeds exactly when the update has at least as many tensors as the model, and otherwise `set_params` raises `ValueError` with nothing recorded. On success the new weights keep the model's shape and are the old weights plus the update, entry by entry; `latest_params` and the return value equal them; `latest_updates` is the update; nothing else changes |
| Actors.TestLocally | flearn/actor.py:119-128 | with test labels: the label count, then the accuracy and loss from `evaluate`, whose `(loss, accuracy)` order is swapped. Otherwise `(0, 0, 0)` |
| Actors.HasUplink | flearn/actor.py:130-133 | true iff the uplink list is non-empty |
| Actors.HasDownlink | flearn/actor.py:135-138 | true iff the downlink list is non-empty |
| Actors.AddDownlink | flearn/actor.py:140-143 | the downlink becomes duplicate-free with elements old ∪ nodes; `has_downlink` holds iff it held before or nodes were given; the other fields are unchanged |
| Actors.AddUplink | flearn/actor.py:145-147 | the uplink becomes duplicate-free with elements old ∪ nodes; `has_uplink` holds iff it held before or nodes were given; the other fields are unchanged |
| Actors.DeleteDownlink | flearn/actor.py:149-151 | exactly the old downlinks not among the nodes remain; duplicate-freedom is kept; the other fields are unchanged |
| Actors.DeleteUplinkAsWritten | flearn/actor.py:153-155 | every call raises `TypeError` |
| Actors.DeleteUplink | flearn/actor.py:153-155 | the intended delete succeeds and keeps exactly the old uplinks not among the nodes; the other fields are unchanged |
| Actors.DeleteUplinkDiscrepancy | flearn/actor.py:153-155 | on every input the written delete fails while the intended one succeeds; for example, uplink `[1]` minus `[1]` should be empty |
| Actors.AddDownlinkIdempotent | flearn/actor.py:140-143 | adding the same downlinks twice is adding them once |
| Actors.AddUplinkIdempotent | flearn/actor.py:145-147 | adding the same uplinks twice is adding them once |
| Actors.DeleteDownlinkAbsent | flearn/actor.py:149-151 | deleting downlinks that are not present changes nothing |
| Actors.DeleteDownlinkKeepsOrder | flearn/actor.py:150 | the surviving downlinks keep their original order |
| Actors.DeleteAllLinks | flearn/actor.py:130-155 | after deleting all current downlinks `has_downlink` is false, and after the intended delete of all uplinks `has_uplink` is false |
| Actors.SetGetParams | flearn/actor.py:31-39 | setting the weights that `get_params` returned changes nothing |
| Actors.SolveThenApply | flearn/actor.py:74-106 | when training returns, applying the reported update to the rolled-back actor lands exactly on the weights `fit` produced |
| Actors.EmptySolveIsHarmless | flearn/actor.py:90-106 | with no training data, applying the sentinel update to a synchronised actor leaves its weights unchanged |
| Actors.TestAfterApply | flearn/actor.py:101-128 | after a successful update, local testing evaluates the updated weights `t0 + u` on the same test set |
| Actors.TestAfterSolve | flearn/actor.py:62-128 | local training is invisible to a later local test, because the rollback restores the evaluated weights |
| Actors.ApplyTwice | flearn/actor.py:95-107 | two successive updates leave the weights at `t0 + d1 + d2` entrywise; the bookkeeping stays synchronised and `latest_updates` is the second update |
| Clients.CheckTrainable | flearn/client.py:25-30 | with training labels: `trainable` is set and `train_size` becomes the label count. Otherwise nothing changes. The flag is never cleared, the result is always `False`, and no other field changes |
| Clients.CheckTestable | flearn/client.py:32-36 | the same as `check_trainable`, for `testable`, `test_size` and the test labels |
| Clients.NewClient | flearn/client.py:10-19 | the name is `client` followed by the id; the uplink is duplicate-free with the given elements; there are no downlinks; clustering is off and the difference list is empty; `trainable`/`testable` hold iff there are labels, and the sizes are the label counts; the bookkeeping matches the model |
| Clients.ClientHasDownlink | flearn/client.py:22-23 | a client never reports a downlink |
| Clients.Train | flearn/client.py:38-51 | trainability is refreshed and the weights are untouched. Without training labels: `(0, 0, 0, zero update shaped like latest_params)`. With labels: the call succeeds iff `fit` ran at least one epoch (both histories non-empty), and then reports the label count, the last-epoch accuracy and loss, and trained minus starting weights. Otherwise the `KeyError` of `solve_inner` passes through; `[-1]` never fails |
| Clients.Test | flearn/client.py:53-62 | testability is refreshed. With test labels: the label count, accuracy and loss in that order. Otherwise `(0, 0, 0)` with the client unchanged |
| Clients.CheckTrainableIdempotent | flearn/client.py:25-30 | refreshing trainability twice is refreshing it once |
| Clients.CheckTestableIdempotent | flearn/client.py:32-36 | refreshing testability twice is refreshing it once |
| Clients.TrainWellBehaved | flearn/client.py:49-51 | suppose `fit` runs at least one epoch, reports one entry per epoch and keeps shapes. Then `train` succeeds and its update has the shape of `latest_params`. Applying that update reproduces the trained weights |
| Clients.ZeroEpochsRaiseKeyError | flearn/client.py:50-51 | with training data and a Keras-like `fit`, `train(0)` raises `KeyError` and leaves the weights where they were |
| Clients.TestAfterTrain | flearn/client.py:38-62 | testing after `train` reports exactly what testing before it would have, because `train` rolls the weights back |
| Clients.NewClientTrains | flearn/client.py:10-51 | a freshly built client with training data trains on all of its samples. Its update has the shape of its `latest_params`, and the client is unchanged |

## Behaviour of the code worth knowing

- `check_trainable`/`check_testable` (flearn/client.py:25-36) only ever set the flag and the size. They never clear them: once the data has gone, `trainable` stays true and `train_size` keeps its old value.
- With no model attached, `get_params` returns `None` (flearn/actor.py:31-33) and `set_params` does nothing. The model assumes a model is always attached (see below).

## Left out

- `solve_gradients` (flearn/actor.py:41-60) is left out because it needs TensorFlow's gradient tape. Its guard `self.train_data['y'] > 0` compares a label array with `0` instead of the label count. Whether the count test was intended is left open.
- Actors without a model are left out. In that case `get_params` returns `None`, `set_params` does nothing, and `preprocess` would iterate over `None`. Every actor here holds weights.
- The body of `model.fit` and `model.evaluate` is left out. They are arbitrary functions passed in. Mini-batching, epochs and floating-point rounding are not modelled.
- Tensors are flattened, so numpy broadcasting is left out. `Tensors.ZipAdd`, `Tensors.ZipSub` and `Actors.ApplyUpdate` require the tensors that `zip` pairs to have equal length.
- Actors.ApplyUpdate: returns a `ValueError` result when the update has fewer tensors than the model. `zip` then drops tensors and Keras's `set_weights` rejects the shorter list. A longer update is truncated by `zip` and succeeds.
- Actors.SolveInner: requires that `fit` keeps the shape of the weights. A Keras model's weight shapes are fixed by its layers, so the `ValueError` that the rollback's `set_params` would raise otherwise cannot occur. `Clients.Train` inherits this requirement.
- Randomness and optimizer state of `model.fit` are left out. `FitFn` is a deterministic function of the starting weights, while Keras shuffles by default, the Fashion-MNIST model applies `Dropout`, and the optimizer's step counter advances and is not rolled back by `set_params`. "Left exactly as before" in `Actors.SolveInner` is about the modelled fields: weights, bookkeeping, links and flags.
- The order that Python's `set` gives is left out. `Links.Union` keeps first occurrences. The add/delete contracts are about elements and lengths only. The exceptions are the list equalities of `Links.DedupOfNoDups`, `Links.DedupAbsorbs`, `Links.UnionOne`, `Links.UnionIdempotent`, `Actors.AddDownlinkIdempotent` and `Actors.AddUplinkIdempotent`, which hold for this representative order only.
- The type of `id` is left open by the code. The model fixes it to `int`, so `PyStr` and `Actors.NameIdentifies` are about integer ids printed by `str`.
- Aliasing is left out, because the actor is a value. `apply_update` stores the caller's own `update` list as `latest_updates` (flearn/actor.py:105) and returns the `latest_params` list itself (flearn/actor.py:107). In the code a later in-place change by the caller shows through; in the model it cannot.
- The base `Actor.train`/`Actor.test` (flearn/actor.py:157-162) are left out: they return `None`. The overrides in `Clients` are modelled.
- The commented-out `refresh_latest_params_updates` (flearn/actor.py:108-118) is dead code.
- Mutable default arguments are left out, and so are the default `{'x': [], 'y': []}` datasets. Plain lists have no `.shape`, so the defaults would fail on first use. Datasets here always carry labels whose count is their length.
- The intermediate state inside `__init__` is simplified: `name` is `'NULL'` and `latest_params` is `None` until `preprocess` runs. The model writes `[]` for `None`, and `preprocess` overwrites it at once.
- `main.py`, the Keras layer builders under `flearn/model/`, and the trainers are left out. The trainers (FedAvg, IFCA, FeSEM, FedGroup), their grouping, migration and aggregation, are not part of this model.

## Findings

| source | as written | input that shows it | evidently intended | confidence | as-written member | corrected member |
|---|---|---|---|---|---|---|
| flearn/actor.py:153-155 | `delete_uplink` evaluates `self.uplink - nodes`; both are lists, so Python raises `TypeError` | any call, e.g. uplink `[1]` and nodes `[1]` | the filter `[c for c in self.uplink if c not in nodes]`, as in `delete_downlink` | high; not executed | Actors.DeleteUplinkAsWritten | Actors.DeleteUplink |

=== FILE: actor.dfy ===
/** The base actor of the federated-learning topology (server, group or client):
    its parameter bookkeeping and its uplink/downlink edits.

    The Keras model handle is represented by its current weights (`weights`,
    what `get_weights()` would return). Local training and evaluation are the
    model's business and are passed in as functions: `FitFn` plays
    `model.fit` and `EvalFn` plays `model.evaluate`. */
module Actors {
  import opened Tensors
  import opened Links
  import PyStr

  /** A local dataset: features `x` and labels `y`. */
  datatype Dataset = Dataset(x: seq<seq<real>>, y: seq<int>)

  /** `data['y'].shape[0]` */
  function LabelCount(d: Dataset): nat {
    |d.y|
  }

  /** What `model.fit` leaves behind: the trained weights and the
      `history.history['accuracy']` and `['loss']` lists. Keras creates each
      key at the end of the first epoch and appends to it at every later one,
      so a key is absent exactly when its list would be empty: an empty list
      here stands for an absent key. */
  datatype History = History(weights: Params, accuracy: seq<real>, loss: seq<real>)

  /** `model.fit(x, y, batch_size, epochs)` started from the given weights. */
  type FitFn = (Params, Dataset, nat, nat) -> History

  /** `model.evaluate(x, y)` under the given weights: the pair `(loss, accuracy)`. */
  type EvalFn = (Params, Dataset) -> (real, real)

  /** The Python exceptions that the modelled code can raise. */
  datatype PyError = TypeError | KeyError | ValueError

  datatype Result<T> = Ok(value: T) | Err(error: PyError)

  datatype Actor = Actor(
    id: int,
    actorType: string,
    name: string,
    trainData: Dataset,
    testData: Dataset,
    weights: Params,
    latestParams: Params,
    latestUpdates: Params,
    trainSize: nat,
    testSize: nat,
    uplink: seq<NodeId>,
    downlink: seq<NodeId>,
    trainable: bool,
    testable: bool)

  /** What `solve_inner` returns: sample count, per-epoch accuracy and loss, update. */
  datatype Solution = Solution(numSamples: nat, accuracy: seq<real>, loss: seq<real>, update: Params)

  /** What `test_locally` returns: sample count, accuracy, loss. */
  datatype Metrics = Metrics(numSamples: nat, accuracy: real, loss: real)

  /** The bookkeeping agrees with the live model: `latest_params` is the
      current weights and `latest_updates` has the same shape. */
  predicate Synced(a: Actor) {
    && a.latestParams == a.weights
    && SameShape(a.latestUpdates, a.latestParams)
  }

  /** `str(actor_type) + str(id)`: the type, then the id in decimal. */
  function Name(actorType: string, id: int): (n: string)
    ensures |n| > |actorType|
    ensures n[..|actorType|] == actorType
    ensures n[|actorType|..] == PyStr.IntToString(id)
  {
    actorType + PyStr.IntToString(id)
  }

  /** Within one actor type, the name determines the identifier. */
  lemma NameIdentifies(actorType: string, id1: int, id2: int)
    requires Name(actorType, id1) == Name(actorType, id2)
    ensures id1 == id2
  {
    var n1 := Name(actorType, id1);
    assert n1[|actorType|..] == PyStr.IntToString(id1);
    assert Name(actorType, id2)[|actorType|..] == PyStr.IntToString(id2);
    PyStr.IntToStringInjective(id1, id2);
  }

  /** `preprocess`: name the actor and start the bookkeeping from the current
      weights with an all-zero update. */
  function Preprocess(a: Actor): (r: Actor)
    ensures r.name == Name(a.actorType, a.id)
    ensures r.latestParams == a.weights
    ensures SameShape(r.latestUpdates, r.latestParams) && AllZero(r.latestUpdates)
    ensures Synced(r)
    ensures r.(name := a.name, latestParams := a.latestParams, latestUpdates := a.latestUpdates) == a
  {
    var params := a.weights;
    a.(name := Name(a.actorType, a.id), latestParams := params, latestUpdates := ZerosLike(params))
  }

  /** `Actor.__init__` with a model attached. */
  function NewActor(id: int, actorType: string, trainData: Dataset, testData: Dataset, weights: Params): (a: Actor)
    ensures a.id == id && a.actorType == actorType && a.name == Name(actorType, id)
    ensures a.trainData == trainData && a.testData == testData
    ensures a.weights == weights && Synced(a) && AllZero(a.latestUpdates)
    ensures a.trainSize == 0 && a.testSize == 0
    ensures a.uplink == [] && a.downlink == []
    ensures !a.trainable && !a.testable
  {
    Preprocess(Actor(id, actorType, "NULL", trainData, testData, weights, [], [], 0, 0, [], [], false, false))
  }

  /** `get_params`: the live model's weights, which is what `latest_params`
      holds as long as the bookkeeping is synchronised. */
  function GetParams(a: Actor): (w: Params)
    ensures w == a.weights
    ensures Synced(a) ==> w == a.latestParams
  {
    a.weights
  }

  /** `set_params`: installs the weights and leaves `latest_params` and
      `latest_updates` as they were. Keras's `set_weights` raises `ValueError`
      unless the list has one tensor of the same shape per model weight. */
  function SetParams(a: Actor, w: Params): (r: Result<Actor>)
    ensures r.Ok? <==> SameShape(w, a.weights)
    ensures r.Err? ==> r.error == ValueError
    ensures r.Ok? ==> GetParams(r.value) == w
    ensures r.Ok? ==> r.value.latestParams == a.latestParams && r.value.latestUpdates == a.latestUpdates
    ensures r.Ok? ==> r.value.(weights := a.weights) == a
  {
    if SameShape(w, a.weights) then Ok(a.(weights := w)) else Err(ValueError)
  }

  /** `solve_inner(num_epoch, batch_size)`: train a copy of the weights, roll
      the model back, and report the delta together with the histories. The
      rollback happens before the histories are read, so when `fit` ran no
      epoch the `KeyError` of `history.history['accuracy']` leaves the actor
      rolled back as well. */
  function SolveInner(a: Actor, fit: FitFn, numEpoch: nat, batchSize: nat): (r: (Actor, Result<Solution>))
    requires LabelCount(a.trainData) > 0 ==>
      SameShape(a.weights, fit(a.weights, a.trainData, batchSize, numEpoch).weights)
    // rollback: the live weights and the bookkeeping are exactly as before
    ensures r.0 == a
    ensures LabelCount(a.trainData) > 0 ==>
      var h := fit(a.weights, a.trainData, batchSize, numEpoch);
      && (r.1.Ok? <==> |h.accuracy| > 0 && |h.loss| > 0)
      && (r.1.Err? ==> r.1.error == KeyError)
      && (r.1.Ok? ==>
            && r.1.value.numSamples == LabelCount(a.trainData)
            && r.1.value.accuracy == h.accuracy && r.1.value.loss == h.loss
            && SameShape(r.1.value.update, a.weights)
            && (forall i, j :: 0 <= i < |r.1.value.update| && 0 <= j < |r.1.value.update[i]| ==>
                  r.1.value.update[i][j] == h.weights[i][j] - a.weights[i][j]))
    ensures LabelCount(a.trainData) == 0 ==>
      && r.1.Ok?
      && r.1.value.numSamples == 0 && r.1.value.accuracy == [0.0] && r.1.value.loss == [0.0]
      && SameShape(r.1.value.update, a.latestParams) && AllZero(r.1.value.update)
  {
    if LabelCount(a.trainData) > 0 then
      var t0 := GetParams(a);
      var h := fit(t0, a.trainData, batchSize, numEpoch);
      // `model.fit` trains the model in place
      var trained := a.(weights := h.weights);
      var t1 := GetParams(trained);
      var rolledBack := SetParams(trained, t0).value;
      var update := ZipSub(t0, t1);
      if |h.accuracy| == 0 || |h.loss| == 0 then
        (rolledBack, Err(KeyError))
      else
        (rolledBack, Ok(Solution(LabelCount(a.trainData), h.accuracy, h.loss, update)))
    else
      (a, Ok(Solution(0, [0.0], [0.0], ZerosLike(a.latestParams))))
  }

  /** `apply_update(update)`: add the update to the live weights and record
      the result as `latest_params` and the update as `latest_updates`. An
      update with fewer tensors than the model makes `zip` drop tensors, so
      `set_params` raises `ValueError` and nothing is recorded. */
  function ApplyUpdate(a: Actor, update: Params): (r: Result<(Actor, Params)>)
    requires ZipCompatible(update, a.weights)
    ensures r.Ok? <==> |update| >= |a.weights|
    ensures r.Err? ==> r.error == ValueError
    ensures r.Ok? ==>
      var (a', w) := r.value;
      && a'.weights == w && a'.latestParams == w
      && a'.latestUpdates == update
      && SameShape(w, a.weights)
      && (forall i, j :: 0 <= i < |w| && 0 <= j < |w[i]| ==> w[i][j] == a.weights[i][j] + update[i][j])
      && (SameShape(update, a.weights) ==> Synced(a'))
      // nothing else changes
      && a'.(weights := a.weights, latestParams := a.latestParams, latestUpdates := a.latestUpdates) == a
  {
    var t0 := GetParams(a);
    var t1 := ZipAdd(update, t0);
    match SetParams(a, t1)
    case Err(e) => Err(e)
    case Ok(installed) =>
      var refreshed := installed.(latestUpdates := update, latestParams := t1);
      Ok((refreshed, refreshed.latestParams))
  }

  /** `test_locally`: evaluate on the local test set. Keras reports
      `(loss, accuracy)`; the actor reports `(count, accuracy, loss)`. */
  function TestLocally(a: Actor, evaluate: EvalFn): (r: Metrics)
    ensures LabelCount(a.testData) > 0 ==>
      && r.numSamples == LabelCount(a.testData)
      && r.accuracy == evaluate(a.weights, a.testData).1
      && r.loss == evaluate(a.weights, a.testData).0
    ensures LabelCount(a.testData) == 0 ==> r == Metrics(0, 0.0, 0.0)
  {
    if LabelCount(a.testData) > 0 then
      var (loss, acc) := evaluate(a.weights, a.testData);
      Metrics(LabelCount(a.testData), acc, loss)
    else
      Metrics(0, 0.0, 0.0)
  }

  /** `has_uplink`: whether any uplink is recorded. */
  function HasUplink(a: Actor): (r: bool)
    ensures r <==> Elems(a.uplink) != {}
  {
    assert |a.uplink| > 0 ==> a.uplink[0] in Elems(a.uplink);
    |a.uplink| > 0
  }

  /** `has_downlink`: whether any downlink is recorded. */
  function HasDownlink(a: Actor): (r: bool)
    ensures r <==> Elems(a.downlink) != {}
  {
    assert |a.downlink| > 0 ==> a.downlink[0] in Elems(a.downlink);
    |a.downlink| > 0
  }

  /** `add_downlink(nodes)` */
  function AddDownlink(a: Actor, nodes: seq<NodeId>): (r: Actor)
    ensures NoDups(r.downlink)
    ensures Elems(r.downlink) == Elems(a.downlink) + Elems(nodes)
    ensures HasDownlink(r) <==> HasDownlink(a) || |nodes| > 0
    ensures r.(downlink := a.downlink) == a
  {
    var d := Union(a.downlink, nodes);
    assert |a.downlink| > 0 ==> a.downlink[0] in Elems(d);
    assert |nodes| > 0 ==> nodes[0] in Elems(d);
    a.(downlink := d)
  }

  /** `add_uplink(nodes)` */
  function AddUplink(a: Actor, nodes: seq<NodeId>): (r: Actor)
    ensures NoDups(r.uplink)
    ensures Elems(r.uplink) == Elems(a.uplink) + Elems(nodes)
    ensures HasUplink(r) <==> HasUplink(a) || |nodes| > 0
    ensures r.(uplink := a.uplink) == a
  {
    var u := Union(a.uplink, nodes);
    assert |a.uplink| > 0 ==> a.uplink[0] in Elems(u);
    assert |nodes| > 0 ==> nodes[0] in Elems(u);
    a.(uplink := u)
  }

  /** `delete_downlink(nodes)` */
  function DeleteDownlink(a: Actor, nodes: seq<NodeId>): (r: Actor)
    ensures forall x :: x in r.downlink <==> x in a.downlink && x !in nodes
    ensures NoDups(a.downlink) ==> NoDups(r.downlink)
    ensures r.(downlink := a.downlink) == a
  {
    a.(downlink := Remove(a.downlink, nodes))
  }

  /** `delete_uplink(nodes)` as written: it evaluates `self.uplink - nodes`,
      and Python has no `-` between two lists, so every call raises
      `TypeError` before the assignment and the actor is left as it was. */
  function DeleteUplinkAsWritten(a: Actor, nodes: seq<NodeId>): (r: Result<Actor>)
    ensures r == Err(TypeError)
  {
    Err(TypeError)
  }

  /** `delete_uplink(nodes)` as evidently intended: the same filter as
      `delete_downlink`, on the uplink. */
  function DeleteUplink(a: Actor, nodes: seq<NodeId>): (r: Result<Actor>)
    ensures r.Ok?
    ensures forall x :: x in r.value.uplink <==> x in a.uplink && x !in nodes
    ensures NoDups(a.uplink) ==> NoDups(r.value.uplink)
    ensures r.value.(uplink := a.uplink) == a
  {
    Ok(a.(uplink := Remove(a.uplink, nodes)))
  }

  /** On every input the written `delete_uplink` fails where the intended one
      succeeds, e.g. an uplink `[1]` with `nodes == [1]` should become empty. */
  lemma DeleteUplinkDiscrepancy(a: Actor, nodes: seq<NodeId>)
    ensures DeleteUplinkAsWritten(a, nodes).Err?
    ensures DeleteUplink(a, nodes).Ok?
    ensures a.uplink == [1] && nodes == [1] ==> DeleteUplink(a, nodes).value.uplink == []
  {
  }

  /** Adding the same downlinks twice is adding them once. */
  lemma AddDownlinkIdempotent(a: Actor, nodes: seq<NodeId>)
    ensures AddDownlink(AddDownlink(a, nodes), nodes) == AddDownlink(a, nodes)
  {
    UnionIdempotent(a.downlink, nodes);
  }

  /** Adding the same uplinks twice is adding them once. */
  lemma AddUplinkIdempotent(a: Actor, nodes: seq<NodeId>)
    ensures AddUplink(AddUplink(a, nodes), nodes) == AddUplink(a, nodes)
  {
    UnionIdempotent(a.uplink, nodes);
  }

  /** Deleting downlinks that are not there changes nothing, and the kept
      downlinks stay in their original order. */
  lemma DeleteDownlinkAbsent(a: Actor, nodes: seq<NodeId>)
    requires forall i :: 0 <= i < |a.downlink| ==> a.downlink[i] !in nodes
    ensures DeleteDownlink(a, nodes) == a
  {
    RemoveAbsent(a.downlink, nodes);
  }

  /** The downlinks that survive a delete appear in the same relative order. */
  lemma DeleteDownlinkKeepsOrder(a: Actor, nodes: seq<NodeId>)
    ensures IsSubsequence(DeleteDownlink(a, nodes).downlink, a.downlink)
  {
    RemoveIsSubsequence(a.downlink, nodes);
  }

  /** Deleting every current link leaves none: `has_downlink` and
      `has_uplink` then report false. */
  lemma DeleteAllLinks(a: Actor)
    ensures !HasDownlink(DeleteDownlink(a, a.downlink))
    ensures !HasUplink(DeleteUplink(a, a.uplink).value)
  {
    RemoveCovered(a.downlink, a.downlink);
    RemoveCovered(a.uplink, a.uplink);
  }

  /** Getting the weights and setting them back is the identity. */
  lemma SetGetParams(a: Actor)
    ensures SetParams(a, GetParams(a)) == Ok(a)
  {
  }

  /** When training reports its histories, applying the reported update to
      the rolled-back actor lands exactly on the weights `fit` produced. */
  lemma SolveThenApply(a: Actor, fit: FitFn, numEpoch: nat, batchSize: nat)
    requires LabelCount(a.trainData) > 0
    requires SameShape(a.weights, fit(a.weights, a.trainData, batchSize, numEpoch).weights)
    ensures var s := SolveInner(a, fit, numEpoch, batchSize);
      s.1.Ok? ==>
        && ZipCompatible(s.1.value.update, s.0.weights)
        && ApplyUpdate(s.0, s.1.value.update).Ok?
        && ApplyUpdate(s.0, s.1.value.update).value.0.weights == fit(a.weights, a.trainData, batchSize, numEpoch).weights
  {
    var h := fit(a.weights, a.trainData, batchSize, numEpoch);
    DeltaRoundTrip(a.weights, h.weights);
  }

  /** With no training data the reported update is all zeros, so applying it
      to a synchronised actor leaves the weights where they were. */
  lemma EmptySolveIsHarmless(a: Actor, fit: FitFn, numEpoch: nat, batchSize: nat)
    requires LabelCount(a.trainData) == 0
    requires Synced(a)
    ensures var s := SolveInner(a, fit, numEpoch, batchSize);
      && s.1.Ok?
      && ZipCompatible(s.1.value.update, a.weights)
      && ApplyUpdate(a, s.1.value.update).Ok?
      && ApplyUpdate(a, s.1.value.update).value.0.weights == a.weights
  {
    var s := SolveInner(a, fit, numEpoch, batchSize);
    AddZeroIsIdentity(s.1.value.update, a.weights);
  }

  /** After a successful update, local testing evaluates the updated weights
      `t0 + u` on the same test set. */
  lemma TestAfterApply(a: Actor, update: Params, evaluate: EvalFn)
    requires ZipCompatible(update, a.weights)
    requires |update| >= |a.weights|
    ensures var r := ApplyUpdate(a, update);
      && r.Ok?
      && TestLocally(r.value.0, evaluate) == TestLocally(a.(weights := ZipAdd(update, a.weights)), evaluate)
      && (LabelCount(a.testData) > 0 ==>
            && TestLocally(r.value.0, evaluate).accuracy == evaluate(ZipAdd(update, a.weights), a.testData).1
            && TestLocally(r.value.0, evaluate).loss == evaluate(ZipAdd(update, a.weights), a.testData).0)
  {
  }

  /** Local training is invisible to a later local test: the rollback
      restores the weights that are evaluated. */
  lemma TestAfterSolve(a: Actor, fit: FitFn, numEpoch: nat, batchSize: nat, evaluate: EvalFn)
    requires LabelCount(a.trainData) > 0 ==>
      SameShape(a.weights, fit(a.weights, a.trainData, batchSize, numEpoch).weights)
    ensures TestLocally(SolveInner(a, fit, numEpoch, batchSize).0, evaluate) == TestLocally(a, evaluate)
  {
  }

  /** Two updates in a row leave the weights at `t0 + d1 + d2`, which is also
      what applying `d1 + d2` once would give. */
  lemma ApplyTwice(a: Actor, d1: Params, d2: Params)
    requires SameShape(d1, a.weights) && SameShape(d2, a.weights)
    ensures ApplyUpdate(a, d1).Ok?
    ensures var a1 := ApplyUpdate(a, d1).value.0;
      && ZipCompatible(d2, a1.weights)
      && ApplyUpdate(a1, d2).Ok?
      && var a2 := ApplyUpdate(a1, d2).value.0;
      && a2.latestUpdates == d2
      && Synced(a2)
      && SameShape(a2.weights, a.weights)
      && (forall i, j :: 0 <= i < |a.weights| && 0 <= j < |a.weights[i]| ==>
            a2.weights[i][j] == a.weights[i][j] + d1[i][j] + d2[i][j])
      && a2.weights == ZipAdd(ZipAdd(d2, d1), a.weights)
  {
    AddComposes(d1, d2, a.weights);
  }
}

=== FILE: client.dfy ===
/** The client: the leaf actor that trains and evaluates on its own data. */
module Clients {
  import opened Tensors
  import opened Links
  import opened Actors

  /** `actor_type` of every client. */
  const ClientType: string := "client"

  /** `train` calls `solve_inner(num_epoch)`, so the batch size is the default. */
  const DefaultBatchSize: nat := 10

  /** A client is an actor plus its clustering state: whether it takes part
      in the clustering procedure, and its recorded `(group, discrepancy)` pairs. */
  datatype Client = Client(actor: Actor, clustering: bool, difference: seq<(NodeId, real)>)

  /** What `Client.train` returns: sample count, last-epoch accuracy and loss, update. */
  datatype TrainReport = TrainReport(numSamples: nat, accuracy: real, loss: real, updates: Params)

  /** `check_trainable`: mark the client trainable and record the training
      size when it has training labels; it never clears the flag, and it
      always returns `False`. */
  function CheckTrainable(c: Client): (r: (Client, bool))
    ensures !r.1
    ensures LabelCount(c.actor.trainData) > 0 ==>
      r.0.actor.trainable && r.0.actor.trainSize == LabelCount(c.actor.trainData)
    ensures LabelCount(c.actor.trainData) == 0 ==> r.0 == c
    ensures c.actor.trainable ==> r.0.actor.trainable
    ensures r.0.(actor := r.0.actor.(trainable := c.actor.trainable, trainSize := c.actor.trainSize)) == c
  {
    if LabelCount(c.actor.trainData) > 0 then
      (c.(actor := c.actor.(trainable := true, trainSize := LabelCount(c.actor.trainData))), false)
    else
      (c, false)
  }

  /** `check_testable`: the same refresh for the test set. */
  function CheckTestable(c: Client): (r: (Client, bool))
    ensures !r.1
    ensures LabelCount(c.actor.testData) > 0 ==>
      r.0.actor.testable && r.0.actor.testSize == LabelCount(c.actor.testData)
    ensures LabelCount(c.actor.testData) == 0 ==> r.0 == c
    ensures c.actor.testable ==> r.0.actor.testable
    ensures r.0.(actor := r.0.actor.(testable := c.actor.testable, testSize := c.actor.testSize)) == c
  {
    if LabelCount(c.actor.testData) > 0 then
      (c.(actor := c.actor.(testable := true, testSize := LabelCount(c.actor.testData))), false)
    else
      (c, false)
  }

  /** `Client.__init__` with a model attached. */
  function NewClient(id: int, trainData: Dataset, testData: Dataset, uplink: seq<NodeId>, weights: Params): (c: Client)
    ensures c.actor.id == id && c.actor.actorType == ClientType && c.actor.name == Name(ClientType, id)
    ensures c.actor.trainData == trainData && c.actor.testData == testData
    ensures c.actor.weights == weights && Synced(c.actor) && AllZero(c.actor.latestUpdates)
    ensures NoDups(c.actor.uplink) && Elems(c.actor.uplink) == Elems(uplink)
    ensures c.actor.downlink == []
    ensures !c.clustering && c.difference == []
    ensures c.actor.trainable <==> LabelCount(trainData) > 0
    ensures c.actor.trainSize == LabelCount(trainData)
    ensures c.actor.testable <==> LabelCount(testData) > 0
    ensures c.actor.testSize == LabelCount(testData)
  {
    var a := NewActor(id, ClientType, trainData, testData, weights);
    var linked := if |uplink| > 0 then AddUplink(a, uplink) else a;
    var c := Client(linked.(trainable := false, testable := false), false, []);
    CheckTestable(CheckTrainable(c).0).0
  }

  /** A client terminates the topology: it reports no downlink, whatever its
      inherited `downlink` list holds. */
  function ClientHasDownlink(c: Client): (r: bool)
    ensures !r
  {
    false
  }

  /** `Client.train(num_epoch)`: refresh trainability, train via `solve_inner`
      with the default batch size, and report the last epoch's accuracy and
      loss. The `KeyError` of `solve_inner` passes through; when it returns,
      both histories are non-empty, so `[-1]` never fails. The refreshed
      client is returned alongside the outcome either way. */
  function Train(c: Client, fit: FitFn, numEpoch: nat): (r: (Client, Result<TrainReport>))
    requires LabelCount(c.actor.trainData) > 0 ==>
      SameShape(c.actor.weights, fit(c.actor.weights, c.actor.trainData, DefaultBatchSize, numEpoch).weights)
    ensures r.0 == CheckTrainable(c).0
    ensures r.0.actor.weights == c.actor.weights
    ensures LabelCount(c.actor.trainData) == 0 ==>
      r.1 == Ok(TrainReport(0, 0.0, 0.0, ZerosLike(c.actor.latestParams)))
    ensures LabelCount(c.actor.trainData) > 0 ==>
      var h := fit(c.actor.weights, c.actor.trainData, DefaultBatchSize, numEpoch);
      && (r.1.Ok? <==> |h.accuracy| > 0 && |h.loss| > 0)
      && (r.1.Err? ==> r.1.error == KeyError)
      && (r.1.Ok? ==>
            && r.1.value.numSamples == LabelCount(c.actor.trainData)
            && r.1.value.accuracy == h.accuracy[|h.accuracy| - 1]
            && r.1.value.loss == h.loss[|h.loss| - 1]
            && r.1.value.updates == ZipSub(c.actor.weights, h.weights))
  {
    var refreshed := CheckTrainable(c).0;
    var (after, res) := SolveInner(refreshed.actor, fit, numEpoch, DefaultBatchSize);
    var c' := refreshed.(actor := after);
    match res
    case Err(e) => (c', Err(e))
    case Ok(s) =>
      (c', Ok(TrainReport(s.numSamples, s.accuracy[|s.accuracy| - 1], s.loss[|s.loss| - 1], s.update)))
  }

  /** `Client.test()`: refresh testability, then `test_locally`. */
  function Test(c: Client, evaluate: EvalFn): (r: (Client, Metrics))
    ensures r.0 == CheckTestable(c).0
    ensures LabelCount(c.actor.testData) > 0 ==>
      && r.1.numSamples == LabelCount(c.actor.testData)
      && r.1.accuracy == evaluate(c.actor.weights, c.actor.testData).1
      && r.1.loss == evaluate(c.actor.weights, c.actor.testData).0
    ensures LabelCount(c.actor.testData) == 0 ==> r == (c, Metrics(0, 0.0, 0.0))
  {
    var refreshed := CheckTestable(c).0;
    (refreshed, TestLocally(refreshed.actor, evaluate))
  }

  /** `fit` reports one accuracy and one loss per epoch and keeps the shapes. */
  predicate WellBehavedFit(h: History, weights: Params, numEpoch: nat) {
    && |h.accuracy| == numEpoch
    && |h.loss| == numEpoch
    && SameShape(weights, h.weights)
  }

  /** Refreshing trainability twice is refreshing it once. */
  lemma CheckTrainableIdempotent(c: Client)
    ensures CheckTrainable(CheckTrainable(c).0).0 == CheckTrainable(c).0
  {
  }

  /** Refreshing testability twice is refreshing it once. */
  lemma CheckTestableIdempotent(c: Client)
    ensures CheckTestable(CheckTestable(c).0).0 == CheckTestable(c).0
  {
  }

  /** Training succeeds whenever there is nothing to train on, or when `fit`
      runs at least one epoch and reports one entry per epoch. A synchronised
      client's update then has the shape of its `latest_params`, and applying
      it reproduces what `fit` produced. */
  lemma TrainWellBehaved(c: Client, fit: FitFn, numEpoch: nat)
    requires Synced(c.actor)
    requires numEpoch > 0
    requires LabelCount(c.actor.trainData) > 0 ==>
      WellBehavedFit(fit(c.actor.weights, c.actor.trainData, DefaultBatchSize, numEpoch), c.actor.weights, numEpoch)
    ensures var r := Train(c, fit, numEpoch);
      && r.1.Ok?
      && r.1.value.numSamples == LabelCount(c.actor.trainData)
      && SameShape(r.1.value.updates, c.actor.latestParams)
      && ZipCompatible(r.1.value.updates, r.0.actor.weights)
      && ApplyUpdate(r.0.actor, r.1.value.updates).Ok?
      && (LabelCount(c.actor.trainData) > 0 ==>
            ApplyUpdate(r.0.actor, r.1.value.updates).value.0.weights
              == fit(c.actor.weights, c.actor.trainData, DefaultBatchSize, numEpoch).weights)
  {
    if LabelCount(c.actor.trainData) > 0 {
      var h := fit(c.actor.weights, c.actor.trainData, DefaultBatchSize, numEpoch);
      DeltaRoundTrip(c.actor.weights, h.weights);
    }
  }

  /** Keras's `fit` records one history entry per epoch, so asking a client
      with training data for zero epochs raises `KeyError`; the rollback has
      already happened and the client keeps its weights. */
  lemma ZeroEpochsRaiseKeyError(c: Client, fit: FitFn)
    requires LabelCount(c.actor.trainData) > 0
    requires WellBehavedFit(fit(c.actor.weights, c.actor.trainData, DefaultBatchSize, 0), c.actor.weights, 0)
    ensures Train(c, fit, 0).1 == Err(KeyError)
    ensures Train(c, fit, 0).0.actor.weights == c.actor.weights
  {
  }

  /** Training is invisible to a later test: `train` rolls the weights back,
      so testing afterwards reports what testing before would have. */
  lemma TestAfterTrain(c: Client, fit: FitFn, numEpoch: nat, evaluate: EvalFn)
    requires LabelCount(c.actor.trainData) > 0 ==>
      SameShape(c.actor.weights, fit(c.actor.weights, c.actor.trainData, DefaultBatchSize, numEpoch).weights)
    ensures Test(Train(c, fit, numEpoch).0, evaluate).1 == Test(c, evaluate).1
  {
  }

  /** A client built with training data trains on all of it, and the update
      has the shape of the freshly initialised `latest_params`. */
  lemma NewClientTrains(id: int, trainData: Dataset, testData: Dataset, uplink: seq<NodeId>,
                        weights: Params, fit: FitFn, numEpoch: nat)
    requires numEpoch > 0
    requires LabelCount(trainData) > 0
    requires WellBehavedFit(fit(weights, trainData, DefaultBatchSize, numEpoch), weights, numEpoch)
    ensures var c := NewClient(id, trainData, testData, uplink, weights);
      var r := Train(c, fit, numEpoch);
      && r.1.Ok?
      && r.1.value.numSamples == LabelCount(trainData)
      && SameShape(r.1.value.updates, c.actor.latestParams)
      && r.0 == c
  {
  }
}

=== FILE: links.dfy ===
/** Uplink and downlink lists of an actor.

    The actor keeps its topology edges in Python lists that are meant to hold
    no duplicates. Adding edges rebuilds the list as `list(set(current + nodes))`;
    deleting edges filters the list with a comprehension. Python's `set` gives
    no particular order, so `Union` fixes one representative order (first
    occurrence wins). The contracts of `Dedup`, `Union` and `Remove` are about
    elements and lengths and hold for any order; the list equalities of
    `DedupOfNoDups`, `DedupAbsorbs`, `UnionIdempotent` and `UnionOne` hold for
    this representative order only. */
module Links {

  /** An actor is referred to by its identifier, not by an object reference. */
  type NodeId = int

  /** No element occurs twice. */
  predicate NoDups(s: seq<NodeId>) {
    forall i, j :: 0 <= i < j < |s| ==> s[i] != s[j]
  }

  /** The elements of `s`, as a set. */
  function Elems(s: seq<NodeId>): set<NodeId> {
    set x | x in s
  }

  /** `s` with every repeated element after its first occurrence dropped. */
  function Dedup(s: seq<NodeId>): (r: seq<NodeId>)
    ensures NoDups(r)
    ensures forall x :: x in r <==> x in s
    ensures |r| <= |s|
    decreases |s|
  {
    if |s| == 0 then []
    else
      var prefix := s[..|s| - 1];
      var r := Dedup(prefix);
      assert forall x :: x in s <==> x in prefix || x == s[|s| - 1];
      if s[|s| - 1] in r then r else r + [s[|s| - 1]]
  }

  /** `list(set(current + nodes))` */
  function Union(current: seq<NodeId>, nodes: seq<NodeId>): (r: seq<NodeId>)
    ensures NoDups(r)
    ensures Elems(r) == Elems(current) + Elems(nodes)
  {
    Dedup(current + nodes)
  }

  /** `[c for c in l if c not in nodes]` */
  function Remove(l: seq<NodeId>, nodes: seq<NodeId>): (r: seq<NodeId>)
    ensures forall x :: x in r <==> x in l && x !in nodes
    ensures NoDups(l) ==> NoDups(r)
    ensures |r| <= |l|
    decreases |l|
  {
    if |l| == 0 then []
    else
      var rest := Remove(l[1..], nodes);
      assert forall x :: x in l <==> x == l[0] || x in l[1..];
      if l[0] in nodes then rest else [l[0]] + rest
  }

  /** `a` is `b` with some elements dropped and the rest kept in order. */
  predicate IsSubsequence(a: seq<NodeId>, b: seq<NodeId>)
    decreases |b|
  {
    if |a| == 0 then true
    else if |b| == 0 then false
    else if a[0] == b[0] then IsSubsequence(a[1..], b[1..])
    else IsSubsequence(a, b[1..])
  }

  /** A duplicate-free list is its own deduplication. */
  lemma {:induction false} DedupOfNoDups(s: seq<NodeId>)
    requires NoDups(s)
    ensures Dedup(s) == s
    decreases |s|
  {
    if |s| > 0 {
      var prefix := s[..|s| - 1];
      assert NoDups(prefix);
      DedupOfNoDups(prefix);
      assert s[|s| - 1] !in prefix;
      assert prefix + [s[|s| - 1]] == s;
    }
  }

  /** Appending elements already present to a duplicate-free list changes nothing. */
  lemma {:induction false} DedupAbsorbs(l: seq<NodeId>, n: seq<NodeId>)
    requires NoDups(l)
    requires forall x :: x in n ==> x in l
    ensures Dedup(l + n) == l
    decreases |n|
  {
    if |n| == 0 {
      assert l + n == l;
      DedupOfNoDups(l);
    } else {
      var n' := n[..|n| - 1];
      assert (l + n)[..|l + n| - 1] == l + n';
      assert (l + n)[|l + n| - 1] == n[|n| - 1];
      DedupAbsorbs(l, n');
    }
  }

  /** Repeating the same add changes nothing. */
  lemma UnionIdempotent(l: seq<NodeId>, n: seq<NodeId>)
    ensures Union(Union(l, n), n) == Union(l, n)
  {
    var u := Union(l, n);
    assert forall x :: x in n ==> x in Elems(n);
    DedupAbsorbs(u, n);
  }

  /** Adding a node grows a duplicate-free list by one exactly when the node is new. */
  lemma UnionOne(l: seq<NodeId>, x: NodeId)
    requires NoDups(l)
    ensures x in l ==> Union(l, [x]) == l
    ensures x !in l ==> Union(l, [x]) == l + [x]
    ensures |Union(l, [x])| == if x in l then |l| else |l| + 1
  {
    assert (l + [x])[..|l + [x]| - 1] == l;
    DedupOfNoDups(l);
  }

  /** Removing nodes none of which is in the list leaves it unchanged. */
  lemma {:induction false} RemoveAbsent(l: seq<NodeId>, nodes: seq<NodeId>)
    requires forall i :: 0 <= i < |l| ==> l[i] !in nodes
    ensures Remove(l, nodes) == l
    decreases |l|
  {
    if |l| > 0 {
      RemoveAbsent(l[1..], nodes);
      assert [l[0]] + l[1..] == l;
    }
  }

  /** Removing nodes that cover the whole list empties it. */
  lemma {:induction false} RemoveCovered(l: seq<NodeId>, nodes: seq<NodeId>)
    requires forall i :: 0 <= i < |l| ==> l[i] in nodes
    ensures Remove(l, nodes) == []
    decreases |l|
  {
    if |l| > 0 {
      RemoveCovered(l[1..], nodes);
    }
  }

  /** The filter works piecewise: it keeps the relative order of the survivors. */
  lemma {:induction false} RemoveConcat(a: seq<NodeId>, b: seq<NodeId>, nodes: seq<NodeId>)
    ensures Remove(a + b, nodes) == Remove(a, nodes) + Remove(b, nodes)
    decreases |a|
  {
    if |a| == 0 {
      assert a + b == b;
    } else {
      assert (a + b)[0] == a[0];
      assert (a + b)[1..] == a[1..] + b;
      RemoveConcat(a[1..], b, nodes);
    }
  }

  /** The survivors of the filter appear in the original list in the same order. */
  lemma {:induction false} RemoveIsSubsequence(l: seq<NodeId>, nodes: seq<NodeId>)
    ensures IsSubsequence(Remove(l, nodes), l)
    decreases |l|
  {
    if |l| > 0 {
      RemoveIsSubsequence(l[1..], nodes);
      var rest := Remove(l[1..], nodes);
      if l[0] !in nodes {
        assert ([l[0]] + rest)[1..] == rest;
      } else {
        SkipHead(rest, l);
      }
    }
  }

  /** A subsequence of the tail is a subsequence of the whole list. */
  lemma {:induction false} SkipHead(a: seq<NodeId>, b: seq<NodeId>)
    requires |b| > 0
    requires IsSubsequence(a, b[1..])
    ensures IsSubsequence(a, b)
    decreases |b|, 0
  {
    if |a| > 0 && a[0] == b[0] {
      // b[0] is matched instead; the rest of a then has to fit in b[1..]
      TailOfSubsequence(a, b[1..]);
    }
  }

  /** Dropping the head of a subsequence keeps it a subsequence. */
  lemma {:induction false} TailOfSubsequence(a: seq<NodeId>, b: seq<NodeId>)
    requires |a| > 0
    requires IsSubsequence(a, b)
    ensures IsSubsequence(a[1..], b)
    decreases |b|, 1
  {
    if a[0] == b[0] {
      if |a[1..]| > 0 {
        assert IsSubsequence(a[1..], b[1..]);
        SkipHead(a[1..], b);
      }
    } else {
      TailOfSubsequence(a, b[1..]);
      if |a[1..]| > 0 {
        SkipHead(a[1..], b);
      }
    }
  }

  /** Filtering twice by the same nodes is filtering once. */
  lemma RemoveIdempotent(l: seq<NodeId>, nodes: seq<NodeId>)
    ensures Remove(Remove(l, nodes), nodes) == Remove(l, nodes)
  {
  }
}

=== FILE: pystr.dfy ===
/** Python's `str()` applied to an integer: an optional minus sign followed by
    the decimal digits, most significant first, with no leading zeros. The
    actor's display name is built from it, so the parse back (`ParseInt`) is
    here to show that the name determines the identifier. */
module PyStr {

  predicate IsDigit(c: char) {
    '0' <= c <= '9'
  }

  /** The character that prints digit `d`. */
  function DigitChar(d: nat): (c: char)
    requires d < 10
    ensures IsDigit(c)
    ensures DigitValue(c) == d
  {
    "0123456789"[d]
  }

  function DigitValue(c: char): (d: nat)
    requires IsDigit(c)
  {
    (c as int) - ('0' as int)
  }

  /** `str(n)` for `n >= 0`: no leading zeros, so only `0` itself starts with `0`. */
  function NatToString(n: nat): (s: string)
    ensures |s| > 0
    ensures forall i :: 0 <= i < |s| ==> IsDigit(s[i])
    ensures |s| > 1 ==> s[0] != '0'
    ensures s[0] == '0' <==> n == 0
    decreases n
  {
    if n < 10 then [DigitChar(n)] else NatToString(n / 10) + [DigitChar(n % 10)]
  }

  /** `str(n)`: a minus sign exactly for negative `n`, then the digits of `|n|`
      with no leading zero. */
  function IntToString(n: int): (s: string)
    ensures |s| > 0
    ensures s[0] == '-' <==> n < 0
    ensures n >= 0 ==> IsDigit(s[0])
    ensures forall i :: 1 <= i < |s| ==> IsDigit(s[i])
    ensures n >= 0 && |s| > 1 ==> s[0] != '0'
    ensures n < 0 ==> |s| > 1 && s[1] != '0'
  {
    if n < 0 then "-" + NatToString(-n) else NatToString(n)
  }

  /** The value of a string of decimal digits. */
  function ParseDigits(s: string): nat
    requires forall i :: 0 <= i < |s| ==> IsDigit(s[i])
    decreases |s|
  {
    if |s| == 0 then 0
    else ParseDigits(s[..|s| - 1]) * 10 + DigitValue(s[|s| - 1])
  }

  /** `int(s)` for the strings `str` produces. */
  function ParseInt(s: string): int
    requires |s| > 0
    requires s[0] == '-' || IsDigit(s[0])
    requires forall i :: 1 <= i < |s| ==> IsDigit(s[i])
  {
    if s[0] == '-' then -(ParseDigits(s[1..]) as int) else ParseDigits(s)
  }

  lemma {:induction false} NatRoundTrip(n: nat)
    ensures ParseDigits(NatToString(n)) == n
    decreases n
  {
    var s := NatToString(n);
    if n >= 10 {
      NatRoundTrip(n / 10);
      assert s[..|s| - 1] == NatToString(n / 10);
      assert DigitValue(s[|s| - 1]) == n % 10;
    } else {
      assert DigitValue(s[0]) == n;
    }
  }

  /** Reading back what `str` wrote gives the original integer. */
  lemma IntRoundTrip(n: int)
    ensures var s := IntToString(n);
      && (s[0] == '-' || IsDigit(s[0]))
      && (forall i :: 1 <= i < |s| ==> IsDigit(s[i]))
      && ParseInt(s) == n
  {
    var s := IntToString(n);
    if n < 0 {
      assert s[1..] == NatToString(-n);
      assert !IsDigit('-');
      NatRoundTrip(-n);
    } else {
      NatRoundTrip(n);
    }
  }

  /** Different integers print differently. */
  lemma IntToStringInjective(m: int, n: int)
    requires IntToString(m) == IntToString(n)
    ensures m == n
  {
    IntRoundTrip(m);
    IntRoundTrip(n);
  }
}

=== FILE: tensors.dfy ===
/** Model parameters as an ordered list of tensors.

    A Keras model's `get_weights()` returns a list of numpy arrays. Each array
    is modelled here flattened to a sequence of exact reals, so the "shape" of
    a tensor is its length and the shape of a parameter list is the list of
    those lengths. Arithmetic is exact: the rounding of float32 is not modelled.

    The actor code combines two parameter lists with Python's `zip`, which
    stops at the shorter list; that truncation is kept. Adding or subtracting
    two paired tensors is numpy's elementwise operation, which needs both
    tensors to have the same shape. */
module Tensors {

  type Tensor = seq<real>
  type Params = seq<Tensor>

  function Min(a: nat, b: nat): nat {
    if a <= b then a else b
  }

  /** Both lists have the same number of tensors and pairwise the same shape. */
  predicate SameShape(p: Params, q: Params) {
    && |p| == |q|
    && forall i :: 0 <= i < |p| ==> |p[i]| == |q[i]|
  }

  /** The tensors that `zip(p, q)` pairs up have the same shape. */
  predicate ZipCompatible(p: Params, q: Params) {
    forall i :: 0 <= i < |p| && i < |q| ==> |p[i]| == |q[i]|
  }

  /** Every entry of every tensor is zero. */
  predicate AllZero(p: Params) {
    forall i, j :: 0 <= i < |p| && 0 <= j < |p[i]| ==> p[i][j] == 0.0
  }

  /** `[np.zeros_like(ws) for ws in p]` */
  function ZerosLike(p: Params): (r: Params)
    ensures SameShape(r, p)
    ensures AllZero(r)
  {
    seq(|p|, i requires 0 <= i < |p| => seq(|p[i]|, j => 0.0))
  }

  /** `[(w0 + up) for up, w0 in zip(update, base)]` */
  function ZipAdd(update: Params, base: Params): (r: Params)
    requires ZipCompatible(update, base)
    ensures |r| == Min(|update|, |base|)
    ensures forall i :: 0 <= i < |r| ==> |r[i]| == |base[i]|
    ensures forall i, j :: 0 <= i < |r| && 0 <= j < |r[i]| ==> r[i][j] == base[i][j] + update[i][j]
  {
    seq(Min(|update|, |base|), i requires 0 <= i < Min(|update|, |base|) =>
      seq(|base[i]|, j requires 0 <= j < |base[i]| => base[i][j] + update[i][j]))
  }

  /** `[(w1 - w0) for w0, w1 in zip(before, after)]` */
  function ZipSub(before: Params, after: Params): (r: Params)
    requires ZipCompatible(before, after)
    ensures |r| == Min(|before|, |after|)
    ensures forall i :: 0 <= i < |r| ==> |r[i]| == |before[i]|
    ensures forall i, j :: 0 <= i < |r| && 0 <= j < |r[i]| ==> r[i][j] == after[i][j] - before[i][j]
  {
    seq(Min(|before|, |after|), i requires 0 <= i < Min(|before|, |after|) =>
      seq(|before[i]|, j requires 0 <= j < |before[i]| => after[i][j] - before[i][j]))
  }

  /** Two parameter lists with the same shape and the same entries are equal. */
  lemma Extensionality(p: Params, q: Params)
    requires SameShape(p, q)
    requires forall i, j :: 0 <= i < |p| && 0 <= j < |p[i]| ==> p[i][j] == q[i][j]
    ensures p == q
  {
    forall i | 0 <= i < |p|
      ensures p[i] == q[i]
    {
      assert |p[i]| == |q[i]|;
      forall j | 0 <= j < |p[i]|
        ensures p[i][j] == q[i][j]
      {
      }
    }
  }

  /** Adding the delta `after - before` back onto `before` gives `after`. */
  lemma DeltaRoundTrip(before: Params, after: Params)
    requires SameShape(before, after)
    ensures SameShape(ZipSub(before, after), before)
    ensures ZipAdd(ZipSub(before, after), before) == after
  {
    var d := ZipSub(before, after);
    var r := ZipAdd(d, before);
    Extensionality(r, after);
  }

  /** The delta of a parameter list against itself is the zero update. */
  lemma DeltaOfSelfIsZero(p: Params)
    ensures ZipSub(p, p) == ZerosLike(p)
  {
    Extensionality(ZipSub(p, p), ZerosLike(p));
  }

  /** Adding a zero update leaves the parameters as they are. */
  lemma AddZeroIsIdentity(z: Params, p: Params)
    requires SameShape(z, p)
    requires AllZero(z)
    ensures ZipAdd(z, p) == p
  {
    Extensionality(ZipAdd(z, p), p);
  }

  /** Applying `d1` and then `d2` is the same as applying their sum once. */
  lemma AddComposes(d1: Params, d2: Params, p: Params)
    requires SameShape(d1, p) && SameShape(d2, p)
    ensures SameShape(ZipAdd(d1, p), p)
    ensures ZipAdd(d2, ZipAdd(d1, p)) == ZipAdd(ZipAdd(d2, d1), p)
    ensures forall i, j :: 0 <= i < |p| && 0 <= j < |p[i]| ==>
      ZipAdd(d2, ZipAdd(d1, p))[i][j] == p[i][j] + d1[i][j] + d2[i][j]
  {
    var once := ZipAdd(ZipAdd(d2, d1), p);
    var twice := ZipAdd(d2, ZipAdd(d1, p));
    Extensionality(twice, once);
  }
}
